=== FILE: README.md ===
# User tracking map: a Dafny model

This project models the logic under a small React/Mapbox live-map app that shows a
simulated crowd of moving users. You can search the crowd, pick one user, and "follow" that
user. Following means the camera and a detail popup track the user until you unfollow.
The model covers five pieces of that logic:

- **Population generator and motion step** (`Simulation`, with `Decimal` for `String(n)`).
  `generateUsers` builds `count` users with ids "1".."count". It jitters their positions
  around a centre and picks each speed from a fast or a slow range, by ordinal parity.
  `updateUserPosition` nudges latitude and longitude by a random amount that grows with speed.
  Every `Math.random()` value is an oracle input of type `Unit` (a real in [0, 1)). Faker's
  name and avatar are oracle strings. Faker's integer helper gets a `Unit` draw and maps it
  into its inclusive range.
- **Simulation feed** (`Feed`). The `useUserSimulation` hook becomes a state machine driven by
  explicit events:
  - activation, which generates the population once;
  - a render, which refreshes the callback ref;
  - the one-shot snapshot timeout;
  - each firing of the update interval;
  - cleanup.

  Every emission is logged together with the callback that received it. A second part places
  the timer firings on an integer time line. This shows that the snapshot comes before every
  update whenever its delay, after the 32-bit conversion and the clamp at zero
  (`Feed.TimerDelay`), is no longer than the interval's, which holds for the defaults.
- **Shared selection state** (`Store`). This holds the two atoms and their derived views
  "is following" and "user to follow".
- **Search panel** (`Search`, with `Text` for `toLowerCase`/`includes`). It covers the
  filter, the list-click toggle, the unfollow button and the followed-user lookup.
- **Map synchronisation** (`TrackingMap`). Mapbox is reduced to the component's own view of
  it:
  - whether the map exists;
  - the marker registry;
  - the single popup, which is closed or is open at a position with some content;
  - `activePopupUserId`;
  - the last camera target;
  - the store.

  Each marker records its current anchor, and also the user and position that its click
  handler captured when the marker was created. The transitions are the simulation-data
  handler (users processed left to right, with the camera and popup reactions inside the
  loop), a marker click, the popup's close event, a background map click, `followUser`,
  `unfollowUser`, the guarded map initialisation, and a selection written by the search
  panel. An invariant holds over every run. Markers are never re-created.

All data is immutable and every operation is a pure function. Coordinates are `real`.

### Notable behaviour of the code

- A marker's click handler captures the `user` and the `lngLat` of the emission that created
  the marker (`src/components/UserTrackingMap.tsx:81-91`). Clicking a marker therefore opens
  the popup at the position the user had when its marker was created, showing the coordinates
  of that moment, and only the next emission moves it. `TrackingMap.MarkerClick` models this
  capture, and `TrackingMap.StaleClickPosition` exhibits it.
- Placing the popup after a marker click or an emission uses the coordinates as they are;
  there is no antimeridian correction (`src/components/UserTrackingMap.tsx:83-113`).
- The map access token is assigned from the environment, falling back to `""`, with no check
  (`src/components/UserTrackingMap.tsx:41`). No error path exists for a missing token.
- The followed id is never reset when its user disappears from the population.
  `Store.UserToFollow` simply yields nothing in that case.
- With the id `""` the two store views disagree (`src/store/userStore.ts:7-12`):
  `isFollowingAtom` compares with `null` and so reports following, while `userToFollowAtom`
  tests for a falsy id and yields nothing. `SearchUser`'s `followedUser` compares with `===`,
  so it agrees with the store's `userToFollow` except on the empty id, where the panel can
  find a user whose id is `""` and the store never does.

## Model

| member | source | states |
|---|---|---|
| `Decimal.NatToString` | src/lib/simulation.ts:29 | `String(userId)` is a non-empty digit string with no leading zero, one digit exactly for values below ten |
| `Decimal.ParseNatToString` | src/lib/simulation.ts:29 | reading the decimal rendering back gives the number: the rendering loses nothing |
| `Decimal.NatToStringInjective` | src/lib/simulation.ts:29 | two numbers render to the same id exactly when they are equal |
| `Simulation.FakerInt` | src/lib/simulation.ts:34-36 | faker's integer draw lies in the inclusive range it was given |
| `Simulation.Jitter` | src/lib/simulation.ts:25-26 | a jittered coordinate satisfies centre−0.1 ≤ c < centre+0.1, and equals the centre exactly when the draw is 0.5 |
| `Simulation.MakeUser` | src/lib/simulation.ts:21-37 | iteration i yields id String(i+1), faker's name and avatar, a speed in 50..70 for an even ordinal and 5..15 for an odd one, and coordinates within ±0.1 of the centre |
| `Simulation.GenerateUsers` | src/lib/simulation.ts:12-40 | returns exactly max(count, 0) users, the i-th being what iteration i builds from the i-th draw |
| `Simulation.GeneratedIds` | src/lib/simulation.ts:21-29 | the generated ids are "1".."count" in order and pairwise distinct |
| `Simulation.GeneratedPlacementAndSpeed` | src/lib/simulation.ts:18-36 | every generated user lies within the ±0.1 box and has a speed from its ordinal's parity range |
| `Simulation.CentredDrawsGiveCentre` | src/lib/simulation.ts:25-26 | if every position draw is 0.5, every user sits exactly on the centre |
| `Simulation.Move` | src/lib/simulation.ts:43-51 | one axis moves by at most 0.00009·\|speed\|/2, and not at all on a draw of 0.5 |
| `Simulation.UpdateUserPosition` | src/lib/simulation.ts:42-54 | id, name, avatar and speed are kept; each coordinate moves by at most 0.00009·\|speed\|/2; a 0.5 draw leaves that coordinate unchanged |
| `Simulation.StepAll` | src/hooks/useUserSimulation.ts:38 | `users.map(updateUserPosition)`: same length, each user stepped with its own draw |
| `Simulation.StepAllKeepsRoster` | src/hooks/useUserSimulation.ts:38 | a tick keeps the roster: same length, ids, names, avatars and speeds in the same order |
| `Feed.Mount` | src/hooks/useUserSimulation.ts:25 | before the effect runs, nothing is generated or emitted and the ref holds the first callback |
| `Feed.Step` | src/hooks/useUserSimulation.ts:25-46 | a render stores the new callback in the ref and changes nothing else; activation from idle generates the population with `generateUsers(userCount)`, arms the snapshot and emits nothing; the log only grows, by at most one emission, which goes to the callback currently in the ref and carries the current population; only an update changes the population; the population is generated once; a stopped feed stays stopped and silent |
| `Feed.RenderedCallbackReceives` | src/hooks/useUserSimulation.ts:25-40 | after a render, the next tick's update, and a pending snapshot, go to the callback that render stored |
| `Feed.GeneratedIsFresh` | src/lib/simulation.ts:12-40 | a generated population of `count` users has ids "1".."count" in order, pairwise distinct, every user inside the box around the default centre |
| `Feed.ActivatedPopulation` | src/hooks/useUserSimulation.ts:31 | the population the feed holds after activation is such a fresh population of `userCount` users |
| `Feed.StepInv` | src/hooks/useUserSimulation.ts:30-46 | every event preserves the feed invariant: no emission before activation, the roster kept by the population and by every emitted population, at most one snapshot |
| `Feed.RunInv` | src/hooks/useUserSimulation.ts:30-46 | after any run, at most one snapshot has been emitted, and after any number of ticks the population keeps the generated length and ids, with names, avatars and speeds unchanged |
| `Feed.RunExtendsLog` | src/hooks/useUserSimulation.ts:31-40 | a run only appends to the log and never generates again once activated; a stopped feed's log never changes |
| `Feed.NoEmissionAfterCleanup` | src/hooks/useUserSimulation.ts:42-45 | cleanup clears both timers, and no later event emits anything |
| `Feed.SnapshotOnce` | src/hooks/useUserSimulation.ts:33-35 | the snapshot emits the population current at firing time, tagged snapshot, and a second firing does nothing |
| `Feed.TickEmitsUpdate` | src/hooks/useUserSimulation.ts:37-40 | an interval firing replaces the population by its stepped version and emits it, tagged update |
| `Feed.ToInt32` | src/hooks/useUserSimulation.ts:33-40 | a delay handed to `setTimeout`/`setInterval` becomes a signed 32-bit `long`: the result is in range, congruent to the delay modulo 2^32, and equal to it when it already fits |
| `Feed.TimerDelay` | src/hooks/useUserSimulation.ts:33-40 | the wait is the delay reduced modulo 2^32 when that residue is below 2^31, and zero when the residue lands in the negative half of the 32-bit range; so a delay in 0..2^31−1 is kept and a negative 32-bit delay waits zero |
| `Feed.TimerDelayWraps` | src/hooks/useUserSimulation.ts:33-40 | a delay of 2^31 ms fires at once, 2^32+100 ms acts as 100 ms, and −1 ms as 0 |
| `Feed.TicksBefore` | src/hooks/useUserSimulation.ts:33-40 | counts the ticks that fire strictly before the snapshot timeout: all earlier ones and none later |
| `Feed.FiringOrder` | src/hooks/useUserSimulation.ts:33-40 | the timeout and ticks 1..n in the order they fire: ordered by time, and the timeout goes before any tick due at the same moment |
| `Feed.SnapshotFiresFirst` | src/hooks/useUserSimulation.ts:33-40 | when the snapshot delay does not exceed the interval, the timeout fires before every tick |
| `Feed.TickFiresFirst` | src/hooks/useUserSimulation.ts:33-40 | when the snapshot delay exceeds the interval, the first tick fires first |
| `Feed.RunTicks` | src/hooks/useUserSimulation.ts:37-40 | on a running feed, a run of interval firings appends exactly one update per firing and keeps the earlier log |
| `Feed.SnapshotPrecedesUpdates` | src/hooks/useUserSimulation.ts:30-40 | when timers are driven in firing order after activation, the first emission is the snapshot of the generated population, and every later one is an update |
| `Feed.DefaultDelaysOrdered` | src/hooks/useUserSimulation.ts:19-23 | the defaults are 100 users, 100 ms and 1000 ms, so the snapshot delay is below the interval |
| `Feed.DefaultActivation` | src/hooks/useUserSimulation.ts:19-35 | activation with the default options generates 100 users with `generateUsers(100)` around the default centre, arms the snapshot and has emitted nothing yet |
| `Store.Initial` | src/store/userStore.ts:5-6 | initially no users and no followed id, so not following and nobody to follow |
| `Store.IsFollowing` | src/store/userStore.ts:7 | true exactly when the followed id is not null: a truthy id or the empty id "" |
| `Store.FindById` | src/store/userStore.ts:13 | `find` by id yields the first user carrying the id, and yields nothing exactly when no user carries it |
| `Store.UserToFollow` | src/store/userStore.ts:9-14 | a null or empty followed id yields nothing; otherwise the result is the first user with that id |
| `Store.UserToFollowIsFollowed` | src/store/userStore.ts:9-14 | a user to follow carries the followed id and is in the population; nothing is found exactly when the id is falsy or absent |
| `Store.EmptyIdViewsDiverge` | src/store/userStore.ts:7-12 | with followed id "" the store reports following, yet there is nobody to follow |
| `Text.LowerChar` | src/components/SearchUser.tsx:25-29 | lower-casing maps each letter 'A'..'Z' to the letter 32 code points up, in 'a'..'z', leaves every other character unchanged, and never yields an upper-case letter |
| `Text.ToLower` | src/components/SearchUser.tsx:25-29 | `toLowerCase` keeps the length and lower-cases position by position |
| `Text.Includes` | src/components/SearchUser.tsx:28-29 | `includes` is true exactly when some window of the string equals the query |
| `Search.Matches` | src/components/SearchUser.tsx:27-29 | a user matches exactly when the query occurs in its lower-cased name or its lower-cased id; the empty query matches everyone |
| `Search.KeepMatching` | src/components/SearchUser.tsx:26-30 | the filtered list is an order-preserving subsequence that holds every matching user as often as the population does, and no other user |
| `Search.FilteredUsers` | src/components/SearchUser.tsx:21-31 | while following, or with an empty query, the list is the whole population; otherwise it holds exactly the users whose lower-cased name or id contains the lower-cased query; it is always an order-preserving subsequence and never longer |
| `Search.FilteredMembership` | src/components/SearchUser.tsx:21-31 | a user is listed exactly when it is in the population and either nothing filters or it matches |
| `Search.FilterIgnoresQueryCase` | src/components/SearchUser.tsx:22-29 | queries with the same lower-case form give the same list |
| `Search.HandleUserClick` | src/components/SearchUser.tsx:33-42 | clicking the followed user unfollows and keeps the query; clicking any other user follows it and clears the query |
| `Search.ClickTwiceUnfollows` | src/components/SearchUser.tsx:35-39 | clicking an unfollowed user twice ends with nobody followed and an empty query |
| `Search.ClickTwiceRefollows` | src/components/SearchUser.tsx:35-39 | clicking the followed user twice restores the selection and clears the query |
| `Search.HandleUnfollowClick` | src/components/SearchUser.tsx:44-46 | the unfollow button always leaves nobody followed and keeps the query |
| `Search.FollowedUser` | src/components/SearchUser.tsx:16-19 | the followed user is the first with the selected id; there is none when nothing is selected or no user has that id |
| `Search.FollowedUserMatchesStore` | src/components/SearchUser.tsx:16-19 | the panel's lookup agrees with the store's `userToFollow` for every selection except "" |
| `TrackingMap.Mount` | src/components/UserTrackingMap.tsx:43-46 | the refs start empty: no map, no markers, popup closed, no popup user, no camera target |
| `TrackingMap.BuildPopup` | src/components/UserTrackingMap.tsx:11-15 | the popup offers Unfollow exactly when the user is followed; otherwise it offers Follow for that user's own id |
| `TrackingMap.Init` | src/components/UserTrackingMap.tsx:119-146 | initialisation creates the map with a closed popup, and does nothing if a map exists |
| `TrackingMap.InitIdempotent` | src/components/UserTrackingMap.tsx:119-120 | initialising twice is initialising once |
| `TrackingMap.PlaceMarker` | src/components/UserTrackingMap.tsx:71-93 | an existing marker only moves, keeping its capture; a new marker captures the user and its position; no other marker changes |
| `TrackingMap.ProcessUser` | src/components/UserTrackingMap.tsx:65-113 | one `forEach` step places the user's marker as `PlaceMarker` says and leaves the store alone; a followed user pulls the camera and the popup, opened with Unfollow; anyone else leaves the camera where it was |
| `TrackingMap.ReactToUser` | src/components/UserTrackingMap.tsx:95-113 | the camera and popup reactions leave the store and markers alone; for the followed user the camera goes to it and the popup ends open on it with Unfollow and it as popup user; for anyone else the camera and popup user stay, and a popup already open for it is refreshed at its position with Follow, any other popup left as is |
| `TrackingMap.ProcessAll` | src/components/UserTrackingMap.tsx:64-114 | after an emission the registry keys are the old keys plus the emitted ids, and none is removed |
| `TrackingMap.MarkersAtEmittedPositions` | src/components/UserTrackingMap.tsx:66-93 | each emitted id's marker ends at that id's position in the emission (its last occurrence) |
| `TrackingMap.MarkersKeepCaptures` | src/components/UserTrackingMap.tsx:71-79 | a marker that already exists is never re-created; only its position can change, and only if its id is emitted |
| `TrackingMap.NewMarkersCaptureFirst` | src/components/UserTrackingMap.tsx:75-92 | a marker created by an emission captures the first user with its id, at that user's position |
| `TrackingMap.OnSimulationData` | src/components/UserTrackingMap.tsx:56-62 | only snapshot and update messages are handled; they are published to the store even without a map, and without a map nothing else changes |
| `TrackingMap.FollowedUserTracked` | src/components/UserTrackingMap.tsx:95-113 | if the followed id is in the emission, the camera goes to that user, and at the end the popup is open on it with Unfollow and the popup user is the followed id; otherwise the camera stays |
| `TrackingMap.OpenPopupRefreshed` | src/components/UserTrackingMap.tsx:110-113 | with nobody in the emission followed, a popup open for X stays open for X; if X is emitted, the popup moves to X's new position with Follow |
| `TrackingMap.OpenPopupTracksUser` | src/components/UserTrackingMap.tsx:95-113 | a popup open for an emitted X (with no other followed user emitted) moves to X's position, keeps X, and offers Unfollow exactly when X is followed, otherwise Follow(X) |
| `TrackingMap.MarkerClick` | src/components/UserTrackingMap.tsx:81-91 | a marker click opens the popup at the position captured when the marker was created, showing the captured user, and sets the popup user to that user's id |
| `TrackingMap.MarkerClickOpensForMarker` | src/components/UserTrackingMap.tsx:81-91 | in any reachable view, a click opens the popup for the clicked marker's own id |
| `TrackingMap.StaleClickPosition` | src/components/UserTrackingMap.tsx:81-91 | after a user moves, clicking its marker opens the popup where the user was at marker creation, not at the marker's current position |
| `TrackingMap.PopupClose` | src/components/UserTrackingMap.tsx:139-144 | closing the popup clears the popup user and a truthy followed id |
| `TrackingMap.MapClick` | src/components/UserTrackingMap.tsx:148-155 | a background click does nothing while following; otherwise a click off a marker closes the popup and clears the popup user |
| `TrackingMap.FollowUser` | src/components/UserTrackingMap.tsx:164 | `followUser(id)` makes id the followed id and changes nothing else |
| `TrackingMap.UnfollowUser` | src/components/UserTrackingMap.tsx:165-169 | `unfollowUser()` clears the followed id, closes the popup and clears the popup user |
| `TrackingMap.StepInv` | src/components/UserTrackingMap.tsx:56-169 | every event preserves the view invariant: the popup is open exactly when it has a user, it shows that user and offers that user's action, and each marker captured the user its key names |
| `TrackingMap.Step` | src/components/UserTrackingMap.tsx:56-169 | one event of the map view, including the search panel writing the followed id: no event removes a marker, the map exists afterwards exactly when it did or the event was initialisation, and a written selection changes only the followed id |
| `TrackingMap.RunInv` | src/components/UserTrackingMap.tsx:56-169 | the view invariant holds after any run of events |
| `TrackingMap.RunKeepsCaptures` | src/components/UserTrackingMap.tsx:71-93 | over any run, no marker disappears and none is re-created: each id is created at most once |
| `TrackingMap.FollowUnfollowRoundTrip` | src/components/UserTrackingMap.tsx:95-169 | follow X, then an emission with X: popup on X with Unfollow and the camera on X; unfollow: popup closed and nobody followed; follow X again, then an emission: the popup reopens on X |

## Left out

- Floating-point rounding: coordinates are exact reals, and `toFixed(5)` and the rest of the popup HTML are reduced to the user shown and the action offered.
- Randomness sources: `Math.random` values are `Unit` oracle inputs, and faker's name and avatar are oracle strings. The faker library itself is not part of this model.
- Simulation.FakerInt: it assumes faker maps a uniform draw u onto the range as min + ⌊u·(max−min+1)⌋. Only the range bound is relied on.
- Simulation.GenerateUsers: `count` is an integer. A fractional or NaN count, which JavaScript accepts, is not modelled.
- Real timers: `setTimeout`/`setInterval` become explicit events. On the time line each delay is converted to a 32-bit `long` and a negative result acts as zero (`Feed.TimerDelay`). A delay that is not an integer, or not a number, is not modelled. The browser's 4 ms nesting clamp and timer drift are not modelled either: each firing happens exactly at its nominal time.
- Feed re-activation when the hook's options change (the effect's dependency list): one activation lifecycle is modelled. React render scheduling and the identity of callbacks under `useCallback`/`useMemo` are left out too.
- Feed.Step: the oracle must supply one generator draw per user on activation and one step draw per user on each tick. This is a condition on the oracle inputs, not on the source's callers.
- The one-render lag of `followUserIdRef` (src/components/UserTrackingMap.tsx:51-54): the model reads the current followed id.
- Mapbox's own event timing: `Popup.remove()` and a re-`addTo` of an open popup may fire the popup's "close" event inside Mapbox. That is not visible in these files, so closing is modelled only as an explicit user event.
- Mapbox rendering: tiles, DOM marker nodes, CSS, `NavigationControl` and the `easeTo` animation are left out. The camera is the last target only.
- Map teardown (src/components/UserTrackingMap.tsx:157-160) and installing or deleting the `window.followUser`/`unfollowUser` globals (src/components/UserTrackingMap.tsx:163-175) are global plumbing. Only the two operations themselves are modelled.
- TrackingMap.PlaceMarker: the registry is a map from ids to markers. In the source it is a plain object (`src/components/UserTrackingMap.tsx:44`), so `markerRegistry[id]` at line 71 also finds inherited properties: an id naming an `Object.prototype` member, such as "constructor" or "toString", makes `marker.setLngLat` at line 74 throw, and the rest of that emission's `forEach` is skipped after the population is already published. The model creates a marker for such an id instead. `generateUsers` only produces decimal ids, so such ids never occur.
- Text.LowerChar, Text.ToLower: only ASCII letters are lower-cased; other characters, such as 'É', are kept as they are. JavaScript's full Unicode case mapping is not modelled.
- The presentational components (`SearchHeader.tsx`, `SearchResultList.tsx`, `UserListItem.tsx`, `src/app/page.tsx`) are markup and their one-line predicates are not modelled.

=== FILE: decimal.dfy ===
/**
 Decimal rendering of natural numbers, as JavaScript's `String(n)` produces it for a
 non-negative integer: the shortest digit string, no sign and no leading zero.
 `ParseNat` reads such a string back; the round trip shows the rendering is injective,
 which is what makes the generated user ids pairwise distinct.
 */
module Decimal {

  predicate IsDigit(c: char) {
    '0' <= c <= '9'
  }

  function DigitChar(d: nat): (c: char)
    requires d < 10
    ensures IsDigit(c)
    ensures DigitValue(c) == d
  {
    ('0' as int + d) as char
  }

  /** The value of one decimal digit; a non-digit reads as 0. */
  function DigitValue(c: char): (d: nat)
    ensures d < 10
  {
    if IsDigit(c) then c as int - '0' as int else 0
  }

  /** `String(n)` for a non-negative integer `n`. */
  function NatToString(n: nat): (s: string)
    ensures 1 <= |s|
    ensures forall i :: 0 <= i < |s| ==> IsDigit(s[i])
    ensures 1 < |s| ==> s[0] != '0'
    ensures n < 10 <==> |s| == 1
  {
    if n < 10 then [DigitChar(n)] else NatToString(n / 10) + [DigitChar(n % 10)]
  }

  /** The value of a string of decimal digits, most significant digit first. */
  function ParseNat(s: string): nat {
    if |s| == 0 then 0 else ParseNat(s[..|s| - 1]) * 10 + DigitValue(s[|s| - 1])
  }

  /** Reading back the decimal rendering of `n` gives `n`. */
  lemma {:induction false} ParseNatToString(n: nat)
    ensures ParseNat(NatToString(n)) == n
  {
    var s := NatToString(n);
    if n < 10 {
      assert s[..|s| - 1] == [];
    } else {
      ParseNatToString(n / 10);
      assert s[..|s| - 1] == NatToString(n / 10);
      assert s[|s| - 1] == DigitChar(n % 10);
    }
  }

  /** Distinct numbers render as distinct strings. */
  lemma NatToStringInjective(a: nat, b: nat)
    ensures NatToString(a) == NatToString(b) <==> a == b
  {
    if NatToString(a) == NatToString(b) {
      ParseNatToString(a);
      ParseNatToString(b);
    }
  }
}

=== FILE: feed.dfy ===
/**
 The simulation feed (src/hooks/useUserSimulation.ts) as an explicit state machine.

 The effect's two timers become events: `TimeoutFires` for the one-shot snapshot timer and
 `IntervalFires` for each firing of the repeating update timer. `Render` is the
 after-every-render effect that stores the latest `onMessage` in `onMessageRef`; callbacks
 are identified by a number. `Activate` is the effect body running once, `Cleanup` its
 returned teardown. Every emission is recorded in a log together with the callback that
 received it.

 The second half of the module places the timer firings on an integer time line, which is
 all that is needed to show that under the default options the snapshot comes first.
 */
module Feed {
  import opened Simulation

  datatype Options = Options(userCount: int, snapshotDelay: int, updateInterval: int)

  /** The destructuring defaults: 100 users, snapshot after 100 ms, a tick every 1000 ms. */
  const DefaultOptions: Options := Options(100, 100, 1000)

  datatype Kind = Snapshot | Update

  datatype Message = Message(kind: Kind, users: seq<User>)

  /** A delivered message and the identity of the callback that received it. */
  datatype Emission = Emission(callback: nat, message: Message)

  datatype Phase = Idle | Running | Stopped

  datatype Feed = Feed(
    options: Options,
    phase: Phase,
    callback: nat,           // onMessageRef.current
    generated: seq<User>,    // the population generated on activation
    users: seq<User>,        // the effect's `users` variable
    snapshotPending: bool,   // the snapshot timeout is scheduled and has neither fired nor been cleared
    log: seq<Emission>)

  datatype Event =
    | Activate(genDraws: seq<UserDraw>)
    | Render(newCallback: nat)
    | TimeoutFires
    | IntervalFires(stepDraws: seq<StepDraw>)
    | Cleanup

  /** The hook on first render: the ref holds the first callback, the effect has not run. */
  function Mount(options: Options, callback: nat): (f: Feed)
    ensures f.phase == Idle && f.log == [] && f.callback == callback
  {
    Feed(options, Idle, callback, [], [], false, [])
  }

  /** The oracle supplies enough random draws for the event: one per generated or stepped user. */
  predicate Supplied(f: Feed, e: Event) {
    match e
    case Activate(d) => f.phase == Idle ==> Max0(f.options.userCount) <= |d|
    case IntervalFires(d) => f.phase == Running ==> |d| == |f.users|
    case _ => true
  }

  /** One event. */
  function Step(f: Feed, e: Event): (r: Feed)
    requires Supplied(f, e)
    ensures r.options == f.options
    // The log only grows, by at most one emission, delivered to the callback held at that moment
    // and carrying the population the feed holds afterwards.
    ensures |f.log| <= |r.log| <= |f.log| + 1 && r.log[..|f.log|] == f.log
    ensures |r.log| == |f.log| + 1 ==>
      && r.log[|f.log|].callback == f.callback
      && r.log[|f.log|].message.users == r.users
      && f.phase == Running
    // Only an update changes the population, and only a render changes the callback.
    ensures !e.IntervalFires? && f.phase != Idle ==> r.users == f.users
    ensures !e.Render? ==> r.callback == f.callback
    // A render stores the latest callback in the ref and does nothing else.
    ensures e.Render? ==> r == f.(callback := e.newCallback)
    // Activation from Idle generates the population once, arms the snapshot and emits nothing yet.
    ensures e.Activate? && f.phase == Idle ==>
      && r.phase == Running && r.snapshotPending && r.log == f.log
      && r.generated == r.users == GenerateUsers(f.options.userCount, DefaultCenter, e.genDraws)
    // Generation happens on activation from Idle and never again.
    ensures f.phase != Idle ==> r.generated == f.generated && r.phase != Idle
    ensures f.phase == Stopped ==> r.phase == Stopped && r.log == f.log
  {
    match e
    case Activate(d) =>
      if f.phase == Idle then
        var users := GenerateUsers(f.options.userCount, DefaultCenter, d);
        f.(phase := Running, generated := users, users := users, snapshotPending := true)
      else f
    case Render(cb) =>
      f.(callback := cb)
    case TimeoutFires =>
      if f.phase == Running && f.snapshotPending then
        f.(snapshotPending := false, log := f.log + [Emission(f.callback, Message(Snapshot, f.users))])
      else f
    case IntervalFires(d) =>
      if f.phase == Running then
        var users := StepAll(f.users, d);
        f.(users := users, log := f.log + [Emission(f.callback, Message(Update, users))])
      else f
    case Cleanup =>
      if f.phase == Running then f.(phase := Stopped, snapshotPending := false) else f
  }

  predicate RunSupplied(f: Feed, evs: seq<Event>)
    decreases |evs|
  {
    |evs| == 0 || (Supplied(f, evs[0]) && RunSupplied(Step(f, evs[0]), evs[1..]))
  }

  function Run(f: Feed, evs: seq<Event>): Feed
    requires RunSupplied(f, evs)
    decreases |evs|
  {
    if |evs| == 0 then f else Run(Step(f, evs[0]), evs[1..])
  }

  function CountSnapshots(log: seq<Emission>): nat {
    if |log| == 0 then 0
    else CountSnapshots(log[..|log| - 1]) + (if log[|log| - 1].message.kind == Snapshot then 1 else 0)
  }

  /**
   What holds of the feed at every point of a run: nothing is emitted before activation,
   a stopped feed has no pending snapshot, the population and every emitted population keep
   the generated roster, and at most one snapshot is ever emitted or still pending.
   */
  predicate Inv(f: Feed) {
    && (f.phase == Idle ==> f.log == [] && !f.snapshotPending)
    && (f.phase == Stopped ==> !f.snapshotPending)
    && (f.phase != Idle ==> |f.generated| == Max0(f.options.userCount))
    && SameRoster(f.generated, f.users)
    && (forall i :: 0 <= i < |f.log| ==> SameRoster(f.generated, f.log[i].message.users))
    && CountSnapshots(f.log) + (if f.snapshotPending then 1 else 0) <= 1
  }

  lemma MountInv(options: Options, callback: nat)
    ensures Inv(Mount(options, callback))
  {
  }

  lemma CountSnapshotsAppend(log: seq<Emission>, e: Emission)
    ensures CountSnapshots(log + [e]) == CountSnapshots(log) + (if e.message.kind == Snapshot then 1 else 0)
  {
    assert (log + [e])[..|log|] == log;
  }

  lemma {:induction false} StepInv(f: Feed, e: Event)
    requires Supplied(f, e) && Inv(f)
    ensures Inv(Step(f, e))
  {
    match e
    case Activate(d) =>
    case Render(cb) =>
    case TimeoutFires =>
      if f.phase == Running && f.snapshotPending {
        SnapshotInv(f);
      }
    case IntervalFires(d) =>
      if f.phase == Running {
        TickInv(f, d);
      }
    case Cleanup =>
  }

  lemma SnapshotInv(f: Feed)
    requires Inv(f) && f.phase == Running && f.snapshotPending
    ensures Inv(Step(f, TimeoutFires))
  {
    SnapshotOnce(f);
    CountSnapshotsAppend(f.log, Emission(f.callback, Message(Snapshot, f.users)));
  }

  lemma TickInv(f: Feed, d: seq<StepDraw>)
    requires Inv(f) && f.phase == Running && |d| == |f.users|
    ensures Inv(Step(f, IntervalFires(d)))
  {
    var users := StepAll(f.users, d);
    TickEmitsUpdate(f, d);
    StepAllKeepsRoster(f.users, d);
    SameRosterTransitive(f.generated, f.users, users);
    CountSnapshotsAppend(f.log, Emission(f.callback, Message(Update, users)));
  }

  /**
   Over any run: at most one snapshot, and after any number of ticks the population and every
   emitted population have the generated length and ids, with names, avatars and speeds unchanged.
   */
  lemma {:induction false} RunInv(f: Feed, evs: seq<Event>)
    requires RunSupplied(f, evs) && Inv(f)
    ensures Inv(Run(f, evs))
    ensures CountSnapshots(Run(f, evs).log) <= 1
    ensures SameRoster(Run(f, evs).generated, Run(f, evs).users)
    decreases |evs|
  {
    if |evs| > 0 {
      StepInv(f, evs[0]);
      RunInv(Step(f, evs[0]), evs[1..]);
    }
  }

  /** A run only appends to the log and never re-generates once activated. */
  lemma {:induction false} RunExtendsLog(f: Feed, evs: seq<Event>)
    requires RunSupplied(f, evs)
    ensures |f.log| <= |Run(f, evs).log| && Run(f, evs).log[..|f.log|] == f.log
    ensures f.phase != Idle ==> Run(f, evs).generated == f.generated
    ensures f.phase == Stopped ==> Run(f, evs).log == f.log
    decreases |evs|
  {
    if |evs| > 0 {
      var g := Step(f, evs[0]);
      RunExtendsLog(g, evs[1..]);
      assert Run(f, evs).log[..|g.log|] == g.log;
      assert g.log[..|f.log|] == f.log;
    }
  }

  /** After cleanup no event produces an emission, whatever the timers or renders do. */
  lemma NoEmissionAfterCleanup(f: Feed, evs: seq<Event>)
    requires Inv(f) && f.phase != Idle
    requires RunSupplied(Step(f, Cleanup), evs)
    ensures Step(f, Cleanup).phase == Stopped && !Step(f, Cleanup).snapshotPending
    ensures Run(Step(f, Cleanup), evs).log == f.log
  {
    RunExtendsLog(Step(f, Cleanup), evs);
  }

  /** The snapshot emits the population current when the timeout fires, and fires at most once. */
  lemma SnapshotOnce(f: Feed)
    requires f.phase == Running && f.snapshotPending
    ensures var r := Step(f, TimeoutFires);
      && r.log == f.log + [Emission(f.callback, Message(Snapshot, f.users))]
      && Step(r, TimeoutFires) == r
  {
  }

  /** A tick replaces the population by its stepped version and emits it as an update. */
  lemma TickEmitsUpdate(f: Feed, d: seq<StepDraw>)
    requires f.phase == Running && |d| == |f.users|
    ensures var r := Step(f, IntervalFires(d));
      && r.phase == Running
      && r.users == StepAll(f.users, d)
      && r.log == f.log + [Emission(f.callback, Message(Update, StepAll(f.users, d)))]
  {
    var users := StepAll(f.users, d);
    assert Step(f, IntervalFires(d)) == f.(users := users, log := f.log + [Emission(f.callback, Message(Update, users))]);
  }

  /**
   The shape of a freshly generated population of `count` users: ids "1".."count" in order,
   pairwise distinct, each user inside the box around the default centre.
   */
  predicate FreshPopulation(users: seq<User>, count: int) {
    && |users| == Max0(count)
    && (forall i :: 0 <= i < |users| ==> users[i].id == Decimal.NatToString(i + 1))
    && (forall i, j :: 0 <= i < |users| && 0 <= j < |users| && i != j ==> users[i].id != users[j].id)
    && (forall u :: u in users ==>
          && DefaultCenter.lat - 0.1 <= u.latitude < DefaultCenter.lat + 0.1
          && DefaultCenter.lng - 0.1 <= u.longitude < DefaultCenter.lng + 0.1)
  }

  lemma GeneratedIsFresh(count: int, d: seq<UserDraw>)
    requires Max0(count) <= |d|
    ensures FreshPopulation(GenerateUsers(count, DefaultCenter, d), count)
  {
    GeneratedIds(count, DefaultCenter, d);
    GeneratedPlacementAndSpeed(count, DefaultCenter, d);
  }

  /** Activation hands the feed a fresh population: the generator's guarantees carry over to the feed. */
  lemma ActivatedPopulation(f: Feed, d: seq<UserDraw>)
    requires f.phase == Idle && Max0(f.options.userCount) <= |d|
    ensures FreshPopulation(Step(f, Activate(d)).users, f.options.userCount)
  {
    GeneratedIsFresh(f.options.userCount, d);
  }

  /** After a render, the next timer emission goes to the callback that render stored, not an older one. */
  lemma RenderedCallbackReceives(f: Feed, cb: nat, d: seq<StepDraw>)
    requires f.phase == Running && |d| == |f.users|
    ensures var g := Step(Step(f, Render(cb)), IntervalFires(d));
      |g.log| == |f.log| + 1 && g.log[|f.log|].callback == cb
    ensures f.snapshotPending ==>
      var g := Step(Step(f, Render(cb)), TimeoutFires);
      |g.log| == |f.log| + 1 && g.log[|f.log|].callback == cb
  {
    var h := Step(f, Render(cb));
    TickEmitsUpdate(h, d);
    if f.snapshotPending {
      SnapshotOnce(h);
    }
  }

  // ---------------------------------------------------------------------------------------
  // Timer firings on an integer time line (milliseconds after activation).

  const TwoTo31: int := 0x8000_0000
  const TwoTo32: int := 0x1_0000_0000

  /** Web IDL's conversion of a timer delay to `long`: wrapped modulo 2^32 into the signed 32-bit range. */
  function ToInt32(t: int): (r: int)
    ensures -TwoTo31 <= r < TwoTo31
    ensures (r - t) % TwoTo32 == 0
    ensures -TwoTo31 <= t < TwoTo31 ==> r == t
  {
    var m := t % TwoTo32;
    if m >= TwoTo31 then m - TwoTo32 else m
  }

  /**
   The delay a timer actually waits: the delay converted to a 32-bit `long`, and then a
   negative value replaced by zero, as in the HTML standard's timer initialisation steps.
   */
  function TimerDelay(t: int): (r: nat)
    ensures r < TwoTo31
    ensures 0 <= t < TwoTo31 ==> r == t
    ensures -TwoTo31 <= t < 0 ==> r == 0
    ensures t % TwoTo32 < TwoTo31 ==> r == t % TwoTo32
    ensures TwoTo31 <= t % TwoTo32 ==> r == 0
  {
    var w := ToInt32(t);
    if w < 0 then 0 else w
  }

  /** Delays outside the 32-bit range wrap: 2^31 ms fires at once, and 2^32 + 100 ms acts as 100 ms. */
  lemma TimerDelayWraps()
    ensures TimerDelay(TwoTo31) == 0
    ensures TimerDelay(TwoTo32 + 100) == 100
    ensures TimerDelay(-1) == 0
  {
    assert ToInt32(TwoTo31) == -TwoTo31;
    assert ToInt32(TwoTo32 + 100) == 100;
  }

  datatype Firing = SnapshotTimer | Tick(n: nat)

  /** When a firing happens: the timeout after its delay, the n-th tick after n intervals. */
  function FireTime(o: Options, x: Firing): int {
    match x
    case SnapshotTimer => TimerDelay(o.snapshotDelay)
    case Tick(n) => TickTime(o, n)
  }

  /** The n-th tick is due n intervals after activation. */
  function TickTime(o: Options, n: nat): int {
    if n == 0 then 0 else TickTime(o, n - 1) + TimerDelay(o.updateInterval)
  }

  lemma {:induction false} TickTimesMonotone(o: Options, a: nat, b: nat)
    requires a <= b
    ensures FireTime(o, Tick(a)) <= FireTime(o, Tick(b))
    decreases b
  {
    if a < b {
      TickTimesMonotone(o, a, b - 1);
    }
  }

  /** Ticks 1 .. n in order. */
  function Ticks(n: nat): (r: seq<Firing>)
    ensures |r| == n && forall k :: 0 <= k < n ==> r[k] == Tick(k + 1)
  {
    seq(n, k requires 0 <= k < n => Tick(k + 1))
  }

  /** How many of ticks 1 .. n fire strictly before the snapshot timeout. */
  function TicksBefore(o: Options, n: nat): (j: nat)
    ensures j <= n
    ensures forall k :: 1 <= k <= j ==> FireTime(o, Tick(k)) < FireTime(o, SnapshotTimer)
    ensures forall k :: j < k <= n ==> FireTime(o, SnapshotTimer) <= FireTime(o, Tick(k))
  {
    if n == 0 then 0
    else if FireTime(o, Tick(n)) < FireTime(o, SnapshotTimer) then
      assert forall k :: 1 <= k <= n ==> FireTime(o, Tick(k)) < FireTime(o, SnapshotTimer) by {
        forall k | 1 <= k <= n {
          TickTimesMonotone(o, k, n);
        }
      }
      n
    else TicksBefore(o, n - 1)
  }

  /**
   The order in which the timeout and the first n ticks fire. Timers due at the same time
   fire in the order they were set, and the timeout is set before the interval, so the
   timeout goes before every tick due at the same moment.
   */
  function FiringOrder(o: Options, n: nat): (r: seq<Firing>)
    ensures |r| == n + 1
    ensures exists j :: 0 <= j < |r| && r[j] == SnapshotTimer && r[..j] + r[j + 1..] == Ticks(n)
    ensures forall a, b :: 0 <= a < b < |r| ==> FireTime(o, r[a]) <= FireTime(o, r[b])
    ensures forall a, b :: 0 <= a < b < |r| && r[b] == SnapshotTimer ==> FireTime(o, r[a]) < FireTime(o, r[b])
  {
    var j := TicksBefore(o, n);
    var r := seq(n + 1, k requires 0 <= k <= n => OrderAt(j, k));
    FiringOrderSorted(o, n, j, r);
    assert r[..j] + r[j + 1..] == Ticks(n);
    r
  }

  /** Position k of the firing order when j ticks come before the timeout. */
  function OrderAt(j: nat, k: nat): Firing {
    if k < j then Tick(k + 1) else if k == j then SnapshotTimer else Tick(k)
  }

  /** The timeout placed after the ticks due before it and before the rest keeps firings in time order. */
  lemma FiringOrderSorted(o: Options, n: nat, j: nat, r: seq<Firing>)
    requires j == TicksBefore(o, n) && |r| == n + 1
    requires forall k :: 0 <= k <= n ==> r[k] == OrderAt(j, k)
    ensures forall a, b :: 0 <= a < b < |r| ==> FireTime(o, r[a]) <= FireTime(o, r[b])
    ensures forall a, b :: 0 <= a < b < |r| && r[b] == SnapshotTimer ==> FireTime(o, r[a]) < FireTime(o, r[b])
  {
    forall a, b | 0 <= a < b < |r|
      ensures FireTime(o, r[a]) <= FireTime(o, r[b])
      ensures r[b] == SnapshotTimer ==> FireTime(o, r[a]) < FireTime(o, r[b])
    {
      if b < j {
        assert r[a] == Tick(a + 1) && r[b] == Tick(b + 1);
        TickTimesMonotone(o, a + 1, b + 1);
      } else if b == j {
        assert r[a] == Tick(a + 1) && r[b] == SnapshotTimer;
        assert 1 <= a + 1 <= TicksBefore(o, n);
        assert FireTime(o, Tick(a + 1)) < FireTime(o, SnapshotTimer);
      } else if a < j {
        assert r[a] == Tick(a + 1) && r[b] == Tick(b);
        assert FireTime(o, Tick(a + 1)) < FireTime(o, SnapshotTimer);
        assert FireTime(o, SnapshotTimer) <= FireTime(o, Tick(b));
      } else if a == j {
        assert r[a] == SnapshotTimer && r[b] == Tick(b);
        assert FireTime(o, SnapshotTimer) <= FireTime(o, Tick(b));
      } else {
        assert r[a] == Tick(a) && r[b] == Tick(b);
        TickTimesMonotone(o, a, b);
      }
    }
  }

  /** When the timeout is due no later than the first tick, it fires before every tick. */
  lemma SnapshotFiresFirst(o: Options, n: nat)
    requires TimerDelay(o.snapshotDelay) <= TimerDelay(o.updateInterval)
    ensures FiringOrder(o, n) == [SnapshotTimer] + Ticks(n)
  {
    var j := TicksBefore(o, n);
    assert FireTime(o, Tick(1)) == TimerDelay(o.updateInterval) by {
      assert TickTime(o, 1) == TickTime(o, 0) + TimerDelay(o.updateInterval);
    }
    assert j == 0;
  }

  /** When the timeout is due after the first tick, an update fires first. */
  lemma TickFiresFirst(o: Options, n: nat)
    requires TimerDelay(o.updateInterval) < TimerDelay(o.snapshotDelay) && 1 <= n
    ensures FiringOrder(o, n)[0] == Tick(1)
  {
    assert FireTime(o, Tick(1)) == TimerDelay(o.updateInterval) by {
      assert TickTime(o, 1) == TickTime(o, 0) + TimerDelay(o.updateInterval);
    }
    assert TicksBefore(o, n) >= 1;
  }

  /** The feed event a firing becomes; tick k consumes the k-th set of step draws. */
  function TimerEvent(x: Firing, tickDraws: seq<seq<StepDraw>>): Event
    requires x.Tick? ==> 1 <= x.n <= |tickDraws|
  {
    match x
    case SnapshotTimer => TimeoutFires
    case Tick(n) => IntervalFires(tickDraws[n - 1])
  }

  function TimerEvents(order: seq<Firing>, tickDraws: seq<seq<StepDraw>>): (evs: seq<Event>)
    requires forall k :: 0 <= k < |order| && order[k].Tick? ==> 1 <= order[k].n <= |tickDraws|
    ensures |evs| == |order|
  {
    seq(|order|, k requires 0 <= k < |order| => TimerEvent(order[k], tickDraws))
  }

  /** A run of ticks on a running feed appends exactly one update per tick. */
  lemma {:induction false} RunTicks(f: Feed, evs: seq<Event>)
    requires f.phase == Running
    requires forall k :: 0 <= k < |evs| ==> evs[k].IntervalFires? && |evs[k].stepDraws| == |f.users|
    ensures RunSupplied(f, evs)
    ensures var r := Run(f, evs);
      && r.phase == Running && |r.users| == |f.users|
      && |r.log| == |f.log| + |evs| && r.log[..|f.log|] == f.log
      && forall k :: |f.log| <= k < |r.log| ==> r.log[k].message.kind == Update
    decreases |evs|
  {
    if |evs| > 0 {
      var d := evs[0].stepDraws;
      TickEmitsUpdate(f, d);
      var g := Step(f, IntervalFires(d));
      assert |g.log| == |f.log| + 1 && g.log[|f.log|].message.kind == Update;
      var rest := evs[1..];
      assert forall k :: 0 <= k < |rest| ==> rest[k] == evs[k + 1];
      RunTicks(g, rest);
      var r := Run(g, rest);
      assert evs[0] == IntervalFires(d);
      assert Run(f, evs) == r;
      assert r.log[..|g.log|] == g.log;
      assert r.log[..|f.log|] == g.log[..|f.log|];
      forall k | |f.log| <= k < |r.log|
        ensures r.log[k].message.kind == Update
      {
        if k == |f.log| {
          assert r.log[k] == g.log[k];
        }
      }
    }
  }

  /** The events of ticks 1 .. |tickDraws| in order. */
  function TickEvents(tickDraws: seq<seq<StepDraw>>): (evs: seq<Event>)
    ensures |evs| == |tickDraws|
    ensures forall k :: 0 <= k < |evs| ==> evs[k] == IntervalFires(tickDraws[k])
  {
    seq(|tickDraws|, k requires 0 <= k < |tickDraws| => IntervalFires(tickDraws[k]))
  }

  /** A timeout followed by all ticks becomes a timeout event followed by the tick events. */
  lemma {:induction false} SnapshotThenTickEvents(tickDraws: seq<seq<StepDraw>>)
    ensures var order := [SnapshotTimer] + Ticks(|tickDraws|);
      && (forall k :: 0 <= k < |order| && order[k].Tick? ==> 1 <= order[k].n <= |tickDraws|)
      && TimerEvents(order, tickDraws) == [TimeoutFires] + TickEvents(tickDraws)
  {
    var order := [SnapshotTimer] + Ticks(|tickDraws|);
    assert forall k :: 1 <= k < |order| ==> order[k] == Tick(k);
    var evs := TimerEvents(order, tickDraws);
    assert forall k :: 1 <= k < |evs| ==> evs[k] == IntervalFires(tickDraws[k - 1]);
  }

  /**
   When the snapshot delay does not exceed the update interval (as with the defaults, 100 ms
   against 1000 ms), driving an activated feed by its timers in firing order emits the snapshot
   first, carrying the generated population, and then one update per tick.
   */
  lemma {:induction false} SnapshotPrecedesUpdates(f: Feed, tickDraws: seq<seq<StepDraw>>)
    requires TimerDelay(f.options.snapshotDelay) <= TimerDelay(f.options.updateInterval)
    requires f.phase == Running && f.snapshotPending && f.log == [] && f.users == f.generated
    requires forall k :: 0 <= k < |tickDraws| ==> |tickDraws[k]| == |f.users|
    ensures var order := FiringOrder(f.options, |tickDraws|);
      && (forall k :: 0 <= k < |order| && order[k].Tick? ==> 1 <= order[k].n <= |tickDraws|)
      && RunSupplied(f, TimerEvents(order, tickDraws))
      && var log := Run(f, TimerEvents(order, tickDraws)).log;
      && |log| == |tickDraws| + 1
      && log[0] == Emission(f.callback, Message(Snapshot, f.generated))
      && forall k :: 1 <= k < |log| ==> log[k].message.kind == Update
  {
    SnapshotFiresFirst(f.options, |tickDraws|);
    SnapshotThenTickEvents(tickDraws);
    var ticks := TickEvents(tickDraws);
    var g := Step(f, TimeoutFires);
    assert g.log == [Emission(f.callback, Message(Snapshot, f.generated))] by {
      SnapshotOnce(f);
    }
    RunTicks(g, ticks);
    RunCons(f, TimeoutFires, ticks);
  }

  lemma RunCons(f: Feed, e: Event, rest: seq<Event>)
    requires Supplied(f, e) && RunSupplied(Step(f, e), rest)
    ensures RunSupplied(f, [e] + rest) && Run(f, [e] + rest) == Run(Step(f, e), rest)
  {
    assert ([e] + rest)[0] == e && ([e] + rest)[1..] == rest;
  }

  /** The default options satisfy the ordering condition of `SnapshotPrecedesUpdates`. */
  lemma DefaultDelaysOrdered()
    ensures TimerDelay(DefaultOptions.snapshotDelay) < TimerDelay(DefaultOptions.updateInterval)
    ensures DefaultOptions == Options(100, 100, 1000)
  {
  }

  /** An activation under the default options meets the requirements of `SnapshotPrecedesUpdates`. */
  lemma DefaultActivation(callback: nat, genDraws: seq<UserDraw>)
    requires Max0(DefaultCount) <= |genDraws|
    ensures var f := Step(Mount(DefaultOptions, callback), Activate(genDraws));
      && f.phase == Running && f.snapshotPending && f.log == [] && f.users == f.generated
      && |f.users| == 100 && f.callback == callback
      && f.users == GenerateUsers(DefaultCount, DefaultCenter, genDraws)
  {
  }
}

=== FILE: search.dfy ===
/**
 The search panel's logic (src/components/SearchUser.tsx): the filter over the published
 population, the list-click toggle, the unfollow button and the followed-user lookup.
 The panel's local state is the query; the followed id lives in the shared store.
 */
module Search {
  import opened Wrappers
  import opened Simulation
  import opened Store
  import opened Text

  datatype Panel = Panel(query: string, store: Store)

  /** Some window of `s` equals `sub`. */
  ghost predicate ContainsQuery(s: string, sub: string) {
    exists i :: OccursAt(s, sub, i)
  }

  /** The filter test: the lower-cased name or the lower-cased id contains the lower-cased query. */
  predicate Matches(u: User, lowerQuery: string): (r: bool)
    ensures r <==> ContainsQuery(ToLower(u.name), lowerQuery) || ContainsQuery(ToLower(u.id), lowerQuery)
    ensures lowerQuery == [] ==> r
  {
    assert lowerQuery == [] ==> OccursAt(ToLower(u.name), lowerQuery, 0);
    var inName, inId := Includes(ToLower(u.name), lowerQuery), Includes(ToLower(u.id), lowerQuery);
    inName || inId
  }

  /** `a` can be obtained from `b` by deleting elements, order kept. */
  predicate IsSubsequence<T(==)>(a: seq<T>, b: seq<T>)
    decreases |b|
  {
    || |a| == 0
    || (&& 0 < |b|
        && ((&& 0 < |a|
             && a[|a| - 1] == b[|b| - 1]
             && IsSubsequence(a[..|a| - 1], b[..|b| - 1]))
            || IsSubsequence(a, b[..|b| - 1])))
  }

  lemma {:induction false} SubsequenceNotLonger<T>(a: seq<T>, b: seq<T>)
    requires IsSubsequence(a, b)
    ensures |a| <= |b|
    decreases |b|
  {
    if |a| > 0 {
      if 0 < |a| && a[|a| - 1] == b[|b| - 1] && IsSubsequence(a[..|a| - 1], b[..|b| - 1]) {
        SubsequenceNotLonger(a[..|a| - 1], b[..|b| - 1]);
      } else {
        SubsequenceNotLonger(a, b[..|b| - 1]);
      }
    }
  }

  /** `allUsers.filter(...)` with the matching test: keeps exactly the matching users, in order. */
  function KeepMatching(users: seq<User>, lowerQuery: string): (r: seq<User>)
    ensures IsSubsequence(r, users)
    ensures forall u :: multiset(r)[u] == if Matches(u, lowerQuery) then multiset(users)[u] else 0
  {
    if |users| == 0 then []
    else
      var init := users[..|users| - 1];
      var last := users[|users| - 1];
      assert users == init + [last];
      var kept := KeepMatching(init, lowerQuery);
      if Matches(last, lowerQuery) then
        assert (kept + [last])[..|kept|] == kept;
        kept + [last]
      else kept
  }

  /** `filteredUsers`: everything while someone is followed or the query is empty, else the matches. */
  function FilteredUsers(users: seq<User>, query: string, followId: Option<string>): (r: seq<User>)
    ensures Truthy(followId) || query == "" ==> r == users
    ensures IsSubsequence(r, users) && |r| <= |users|
    ensures !Truthy(followId) && query != "" ==>
      forall u :: multiset(r)[u] == if Matches(u, ToLower(query)) then multiset(users)[u] else 0
  {
    var r := if Truthy(followId) || query == "" then users else KeepMatching(users, ToLower(query));
    assert IsSubsequence(users, users) by { SubsequenceReflexive(users); }
    SubsequenceNotLonger(r, users);
    r
  }

  lemma {:induction false} SubsequenceReflexive<T>(a: seq<T>)
    ensures IsSubsequence(a, a)
    decreases |a|
  {
    if |a| > 0 {
      SubsequenceReflexive(a[..|a| - 1]);
    }
  }

  /** A user is listed exactly when it is in the population and matches (or nothing filters). */
  lemma FilteredMembership(users: seq<User>, query: string, followId: Option<string>, u: User)
    ensures u in FilteredUsers(users, query, followId) <==>
      u in users && (Truthy(followId) || query == "" || Matches(u, ToLower(query)))
  {
    var r := FilteredUsers(users, query, followId);
    assert u in r <==> multiset(r)[u] > 0;
    assert u in users <==> multiset(users)[u] > 0;
  }

  /** The filter sees the query only through its lower-cased form. */
  lemma FilterIgnoresQueryCase(users: seq<User>, q1: string, q2: string, followId: Option<string>)
    requires ToLower(q1) == ToLower(q2)
    ensures FilteredUsers(users, q1, followId) == FilteredUsers(users, q2, followId)
  {
    assert q1 == "" <==> q2 == "";
  }

  /** `handleUserClick`: clicking the followed user unfollows, any other user is followed and the query cleared. */
  function HandleUserClick(p: Panel, userId: string): (r: Panel)
    ensures r.store.users == p.store.users
    ensures p.store.followId == Some(userId) ==> r.store.followId == None && r.query == p.query
    ensures p.store.followId != Some(userId) ==> r.store.followId == Some(userId) && r.query == ""
  {
    if p.store.followId == Some(userId) then p.(store := p.store.(followId := None))
    else Panel("", p.store.(followId := Some(userId)))
  }

  /** Clicking the same user twice, starting from anything but that user, ends with nobody followed and no query. */
  lemma ClickTwiceUnfollows(p: Panel, userId: string)
    requires p.store.followId != Some(userId)
    ensures HandleUserClick(HandleUserClick(p, userId), userId) == Panel("", p.store.(followId := None))
  {
  }

  /** Clicking the same user twice, starting from that user, restores the selection and clears the query. */
  lemma ClickTwiceRefollows(p: Panel, userId: string)
    requires p.store.followId == Some(userId)
    ensures HandleUserClick(HandleUserClick(p, userId), userId) == Panel("", p.store)
  {
  }

  /** `handleUnfollowClick`: nobody is followed afterwards, the query stays. */
  function HandleUnfollowClick(p: Panel): (r: Panel)
    ensures r.store.followId == None && !IsFollowing(r.store)
    ensures r.query == p.query && r.store.users == p.store.users
  {
    p.(store := p.store.(followId := None))
  }

  /** `followedUser`: `find` with a strict comparison, so a null selection finds nobody. */
  function FollowedUser(users: seq<User>, followId: Option<string>): (r: Option<User>)
    ensures followId.None? ==> r == None
    ensures followId.Some? ==> r == FindById(users, followId.value)
    ensures r.Some? ==> followId == Some(r.value.id) && r.value in users
    ensures followId.Some? && r.None? ==> forall u :: u in users ==> u.id != followId.value
  {
    match followId
    case None => None
    case Some(id) => FindById(users, id)
  }

  /**
   The panel's lookup agrees with the store's `userToFollow` except on the empty id, where
   the panel can find a user whose id is "" and the store never does.
   */
  lemma FollowedUserMatchesStore(users: seq<User>, followId: Option<string>)
    ensures followId != Some("") ==> FollowedUser(users, followId) == UserToFollow(Store(users, followId))
    ensures UserToFollow(Store(users, Some(""))) == None
  {
  }
}

=== FILE: simulation.dfy ===
/**
 The simulated population (src/lib/simulation.ts): the `User` record, the generator that
 builds the initial population and the motion step applied to one user per tick.

 Every `Math.random()` call and every faker call is an oracle input: a `Unit` value for
 `Math.random()`, plain strings for the faker name and avatar, and a `Unit` draw that the
 faker integer helper maps into its inclusive range. Coordinates are `real`, so the bounds
 proved here are exact and floating-point rounding is not modelled.
 */
module Simulation {
  import Decimal

  /** A value `Math.random()` can return: a number in [0, 1). */
  type Unit = r: real | 0.0 <= r < 1.0

  datatype User = User(
    id: string,
    name: string,
    avatar: string,
    latitude: real,
    longitude: real,
    speed: int)

  datatype Center = Center(lat: real, lng: real)

  /** An inclusive integer range, as passed to faker's integer helper. */
  datatype SpeedRange = SpeedRange(min: int, max: int)

  const DefaultCount: int := 100
  const DefaultCenter: Center := Center(-6.2, 106.8)
  const SlowSpeedRange: SpeedRange := SpeedRange(5, 15)
  const FastSpeedRange: SpeedRange := SpeedRange(50, 70)
  /** A jittered coordinate is `center + (random - 0.5) * JitterSpan`. */
  const JitterSpan: real := 0.2
  const BaseMovementFactor: real := 0.00009

  /** The random inputs one iteration of the generator loop consumes, in call order. */
  datatype UserDraw = UserDraw(
    latRandom: Unit,
    lngRandom: Unit,
    name: string,
    avatar: string,
    speedRandom: Unit)

  /** The random inputs one motion step consumes, in call order. */
  datatype StepDraw = StepDraw(latRandom: Unit, lngRandom: Unit)

  function Max0(n: int): nat {
    if n < 0 then 0 else n
  }

  function Abs(x: real): real {
    if x < 0.0 then -x else x
  }

  predicate InRange(n: int, range: SpeedRange) {
    range.min <= n <= range.max
  }

  /** faker's integer helper: a uniform draw mapped onto the inclusive range. */
  function FakerInt(range: SpeedRange, u: Unit): (n: int)
    requires range.min <= range.max
    ensures InRange(n, range)
  {
    var width := (range.max - range.min + 1) as real;
    assert 0.0 <= u * width < width by {
      assert u * width < 1.0 * width;
    }
    range.min + (u * width).Floor
  }

  /** Even ordinals move fast, odd ordinals move slowly. */
  function SpeedRangeFor(ordinal: int): SpeedRange {
    if ordinal % 2 == 0 then FastSpeedRange else SlowSpeedRange
  }

  /** One coordinate placed uniformly around a centre. */
  function Jitter(c: real, u: Unit): (r: real)
    ensures c - JitterSpan / 2.0 <= r < c + JitterSpan / 2.0
    ensures r == c <==> u == 0.5
  {
    c + (u - 0.5) * JitterSpan
  }

  /** The user built by iteration `i` (0-based) of the generator loop. */
  function MakeUser(i: nat, center: Center, d: UserDraw): (u: User)
    ensures u.id == Decimal.NatToString(i + 1)
    ensures u.name == d.name && u.avatar == d.avatar
    ensures (i + 1) % 2 == 0 ==> InRange(u.speed, FastSpeedRange)
    ensures (i + 1) % 2 != 0 ==> InRange(u.speed, SlowSpeedRange)
    ensures center.lat - 0.1 <= u.latitude < center.lat + 0.1
    ensures center.lng - 0.1 <= u.longitude < center.lng + 0.1
    ensures u.latitude == center.lat <==> d.latRandom == 0.5
    ensures u.longitude == center.lng <==> d.lngRandom == 0.5
  {
    var userId := i + 1;
    User(
      Decimal.NatToString(userId),
      d.name,
      d.avatar,
      Jitter(center.lat, d.latRandom),
      Jitter(center.lng, d.lngRandom),
      FakerInt(SpeedRangeFor(userId), d.speedRandom))
  }

  /**
   `generateUsers(count, center)`: the loop pushes one user per iteration, so the first
   `count` draws are consumed; a count of zero or less yields no users.
   */
  function GenerateUsers(count: int, center: Center, draws: seq<UserDraw>): (users: seq<User>)
    requires Max0(count) <= |draws|
    ensures |users| == Max0(count)
    ensures forall i :: 0 <= i < |users| ==> users[i] == MakeUser(i, center, draws[i])
    decreases count
  {
    if count <= 0 then [] else GenerateUsers(count - 1, center, draws) + [MakeUser(count - 1, center, draws[count - 1])]
  }

  /** The ids are "1", "2", ..., in order, with no two equal. */
  lemma GeneratedIds(count: int, center: Center, draws: seq<UserDraw>)
    requires Max0(count) <= |draws|
    ensures var users := GenerateUsers(count, center, draws);
      && (forall i :: 0 <= i < |users| ==> users[i].id == Decimal.NatToString(i + 1))
      && (forall i, j :: 0 <= i < |users| && 0 <= j < |users| && i != j ==> users[i].id != users[j].id)
  {
    var users := GenerateUsers(count, center, draws);
    forall i, j | 0 <= i < |users| && 0 <= j < |users| && i != j
      ensures users[i].id != users[j].id
    {
      Decimal.NatToStringInjective(i + 1, j + 1);
    }
  }

  /** Every generated user lies within the jitter box around the centre and has a speed from its parity's range. */
  lemma GeneratedPlacementAndSpeed(count: int, center: Center, draws: seq<UserDraw>)
    requires Max0(count) <= |draws|
    ensures forall u :: u in GenerateUsers(count, center, draws) ==>
      && center.lat - 0.1 <= u.latitude < center.lat + 0.1
      && center.lng - 0.1 <= u.longitude < center.lng + 0.1
      && (InRange(u.speed, FastSpeedRange) || InRange(u.speed, SlowSpeedRange))
    ensures var users := GenerateUsers(count, center, draws);
      forall i :: 0 <= i < |users| ==>
        InRange(users[i].speed, if (i + 1) % 2 == 0 then FastSpeedRange else SlowSpeedRange)
  {
  }

  /** Every draw of exactly 0.5 puts every user on the centre. */
  lemma CentredDrawsGiveCentre(count: int, center: Center, draws: seq<UserDraw>)
    requires Max0(count) <= |draws|
    requires forall i :: 0 <= i < |draws| ==> draws[i].latRandom == 0.5 && draws[i].lngRandom == 0.5
    ensures forall u :: u in GenerateUsers(count, center, draws) ==>
      u.latitude == center.lat && u.longitude == center.lng
  {
  }

  /** The most one motion step can move a user of the given speed along one axis. */
  function MaxStep(speed: int): real {
    BaseMovementFactor * Abs(speed as real) / 2.0
  }

  lemma HalfScaledBound(a: real, m: real)
    requires -0.5 <= a < 0.5
    ensures Abs(a * m) <= Abs(m) / 2.0
  {
    var b := if a < 0.0 then -a else a;
    var n := Abs(m);
    assert Abs(a * m) == b * n by {
      if a < 0.0 {
        if m < 0.0 { assert a * m == b * n; } else { assert a * m == -(b * n); }
      } else {
        if m < 0.0 { assert a * m == -(b * n); } else { assert a * m == b * n; }
      }
    }
    assert b * n <= 0.5 * n;
  }

  /** A coordinate moved by `(random - 0.5) * BaseMovementFactor * speed`. */
  function Move(x: real, u: Unit, speed: int): (r: real)
    ensures Abs(r - x) <= MaxStep(speed)
    ensures u == 0.5 ==> r == x
  {
    var movementDistance := BaseMovementFactor * speed as real;
    var movement := (u - 0.5) * movementDistance;
    HalfScaledBound(u - 0.5, movementDistance);
    assert Abs(movementDistance) == BaseMovementFactor * Abs(speed as real);
    assert (x + movement) - x == movement;
    x + movement
  }

  /** `updateUserPosition`: one random step on each axis, every other field kept. */
  function UpdateUserPosition(u: User, d: StepDraw): (r: User)
    ensures r == u.(latitude := r.latitude, longitude := r.longitude)
    ensures Abs(r.latitude - u.latitude) <= MaxStep(u.speed)
    ensures Abs(r.longitude - u.longitude) <= MaxStep(u.speed)
    ensures d.latRandom == 0.5 ==> r.latitude == u.latitude
    ensures d.lngRandom == 0.5 ==> r.longitude == u.longitude
  {
    u.(latitude := Move(u.latitude, d.latRandom, u.speed), longitude := Move(u.longitude, d.lngRandom, u.speed))
  }

  /** Two populations list the same users in the same order: same ids, names, avatars and speeds. */
  predicate SameRoster(a: seq<User>, b: seq<User>) {
    && |a| == |b|
    && forall i :: 0 <= i < |a| ==>
      a[i].id == b[i].id && a[i].name == b[i].name && a[i].avatar == b[i].avatar && a[i].speed == b[i].speed
  }

  /** `users.map(updateUserPosition)`, one step draw per user. */
  function StepAll(users: seq<User>, draws: seq<StepDraw>): (r: seq<User>)
    requires |draws| == |users|
    ensures |r| == |users|
    ensures forall i :: 0 <= i < |r| ==> r[i] == UpdateUserPosition(users[i], draws[i])
  {
    if |users| == 0 then []
    else StepAll(users[..|users| - 1], draws[..|draws| - 1]) + [UpdateUserPosition(users[|users| - 1], draws[|draws| - 1])]
  }

  /** A tick changes positions only: the roster is the same before and after. */
  lemma StepAllKeepsRoster(users: seq<User>, draws: seq<StepDraw>)
    requires |draws| == |users|
    ensures SameRoster(users, StepAll(users, draws))
  {
  }

  lemma SameRosterTransitive(a: seq<User>, b: seq<User>, c: seq<User>)
    requires SameRoster(a, b) && SameRoster(b, c)
    ensures SameRoster(a, c)
  {
  }
}

=== FILE: store.dfy ===
/**
 The shared selection state (src/store/userStore.ts): two source values, the published
 population and the followed id, and the two views derived from them.
 */
module Store {
  import opened Wrappers
  import opened Simulation

  datatype Store = Store(users: seq<User>, followId: Option<string>)

  /** Both atoms start out empty: no users, nobody followed. */
  function Initial(): (s: Store)
    ensures s.users == [] && s.followId == None
    ensures !IsFollowing(s) && UserToFollow(s) == None
  {
    Store([], None)
  }

  /** JavaScript truthiness of a `string | null`: null and "" are falsy. */
  predicate Truthy(id: Option<string>) {
    id.Some? && id.value != ""
  }

  /** No user before index `k` carries `id`. */
  predicate IdAbsentBefore(users: seq<User>, id: string, k: int)
    requires k <= |users|
  {
    forall j :: 0 <= j < k ==> users[j].id != id
  }

  /** `users.find(user => user.id === id)`: the first user carrying the id, if any. */
  function FindById(users: seq<User>, id: string): (r: Option<User>)
    ensures r.None? <==> forall i :: 0 <= i < |users| ==> users[i].id != id
    ensures r.Some? ==> r.value.id == id && exists i :: 0 <= i < |users| && users[i] == r.value && IdAbsentBefore(users, id, i)
  {
    if |users| == 0 then None
    else if users[0].id == id then Some(users[0])
    else
      var rest := FindById(users[1..], id);
      assert forall i :: 1 <= i < |users| ==> users[i] == users[1..][i - 1];
      rest
  }

  /** `isFollowingAtom`: a strict comparison with null, so "" counts as following. */
  predicate IsFollowing(s: Store): (r: bool)
    ensures r <==> Truthy(s.followId) || s.followId == Some("")
  {
    s.followId != None
  }

  /** `userToFollowAtom`: a falsy followed id yields nothing, otherwise the first user with that id. */
  function UserToFollow(s: Store): (r: Option<User>)
    ensures !Truthy(s.followId) ==> r == None
    ensures Truthy(s.followId) ==> r == FindById(s.users, s.followId.value)
  {
    if !Truthy(s.followId) then None else FindById(s.users, s.followId.value)
  }

  /** The followed user, when there is one, carries the followed id and belongs to the population. */
  lemma UserToFollowIsFollowed(s: Store)
    ensures UserToFollow(s).Some? ==>
      && s.followId == Some(UserToFollow(s).value.id)
      && UserToFollow(s).value in s.users
    ensures UserToFollow(s).None? <==>
      !Truthy(s.followId) || forall u :: u in s.users ==> u.id != s.followId.value
  {
  }

  /** With the empty string as followed id the two views disagree: following, yet nobody to follow. */
  lemma EmptyIdViewsDiverge(users: seq<User>)
    ensures IsFollowing(Store(users, Some(""))) && UserToFollow(Store(users, Some(""))) == None
  {
  }
}

=== FILE: text.dfy ===
/**
 The two string operations the search filter uses: `toLowerCase` and `includes`.
 Lower-casing is modelled on the ASCII letters only.
 */
module Text {

  /** ASCII lower-casing of one character: 'A'..'Z' move 32 code points up to 'a'..'z', all else is kept. */
  function LowerChar(c: char): (r: char)
    ensures !('A' <= r <= 'Z')
    ensures 'A' <= c <= 'Z' ==> 'a' <= r <= 'z' && r as int == c as int + 32
    ensures !('A' <= c <= 'Z') ==> r == c
  {
    if 'A' <= c <= 'Z' then (c as int - 'A' as int + 'a' as int) as char else c
  }

  /** `s.toLowerCase()`, letter by letter. */
  function ToLower(s: string): (r: string)
    ensures |r| == |s|
    ensures forall i :: 0 <= i < |s| ==> r[i] == LowerChar(s[i])
  {
    if |s| == 0 then [] else ToLower(s[..|s| - 1]) + [LowerChar(s[|s| - 1])]
  }

  /** `sub` occurs in `s` starting at index `i`. */
  predicate OccursAt(s: string, sub: string, i: int) {
    0 <= i && i + |sub| <= |s| && s[i..i + |sub|] == sub
  }

  lemma OccursShift(s: string, sub: string, i: int)
    requires 1 <= i && 1 <= |s|
    ensures OccursAt(s, sub, i) <==> OccursAt(s[1..], sub, i - 1)
  {
    if i + |sub| <= |s| {
      var window, shifted := s[i..i + |sub|], s[1..][i - 1..i - 1 + |sub|];
      assert forall k :: 0 <= k < |sub| ==> window[k] == s[i + k] == shifted[k];
      assert window == shifted;
    }
  }

  /** When `sub` is not a prefix of `s`, it occurs in `s` exactly when it occurs in `s` without its first character. */
  lemma OccursInTail(s: string, sub: string)
    requires |sub| <= |s| && s[..|sub|] != sub && 1 <= |s|
    ensures (exists i :: OccursAt(s, sub, i)) <==> (exists i :: OccursAt(s[1..], sub, i))
  {
    if exists i :: OccursAt(s, sub, i) {
      var i :| OccursAt(s, sub, i);
      assert i != 0;
      OccursShift(s, sub, i);
    }
    if exists i :: OccursAt(s[1..], sub, i) {
      var i :| OccursAt(s[1..], sub, i);
      OccursShift(s, sub, i + 1);
    }
  }

  /** `s.includes(sub)`: some window of `s` equals `sub`; the empty string is included everywhere. */
  function Includes(s: string, sub: string): (r: bool)
    ensures r <==> exists i :: OccursAt(s, sub, i)
  {
    if |s| < |sub| then
      false
    else if s[..|sub|] == sub then
      assert OccursAt(s, sub, 0);
      true
    else
      OccursInTail(s, sub);
      Includes(s[1..], sub)
  }
}

=== FILE: tracking_map.dfy ===
/**
 The map synchronisation component (src/components/UserTrackingMap.tsx) as pure transitions
 over an abstract view of the map.

 Mapbox is reduced to what the component reads and writes: whether the map exists, the marker
 registry keyed by user id, the single popup (closed, or open at a position with some content),
 the id the popup was last opened for, and the last camera target. A marker keeps, besides
 its current anchor, the user record and position its click handler captured when it was
 created. The shared store is part of the state, since the component publishes the
 population to it and reads and writes the followed id.
 */
module TrackingMap {
  import opened Wrappers
  import opened Simulation
  import opened Store

  /** A map position, longitude first as Mapbox takes it. */
  datatype LngLat = LngLat(lng: real, lat: real)

  function PositionOf(u: User): LngLat {
    LngLat(u.longitude, u.latitude)
  }

  /** The button the popup offers. */
  datatype Action = Unfollow | Follow(id: string)

  /** What the popup shows: the user's name, id and coordinates, and one action button. */
  datatype PopupContent = PopupContent(user: User, action: Action)

  /** `buildPopupHtml`, reduced to the user shown and the action chosen. */
  function BuildPopup(u: User, isCurrentlyFollowing: bool): (c: PopupContent)
    ensures c.user == u
    ensures c.action == Unfollow <==> isCurrentlyFollowing
    ensures c.action.Follow? ==> c.action.id == u.id
  {
    PopupContent(u, if isCurrentlyFollowing then Unfollow else Follow(u.id))
  }

  datatype Popup = Closed | Open(pos: LngLat, content: PopupContent)

  /** A marker: its current anchor, and the user and position captured when it was created. */
  datatype Marker = Marker(pos: LngLat, captured: User, capturedPos: LngLat)

  datatype MapView = MapView(
    store: Store,
    mapCreated: bool,                 // mapInstanceRef.current !== null (the popup is created with it)
    markers: map<string, Marker>,     // markersRef.current
    popup: Popup,
    activePopupUserId: Option<string>,
    camera: Option<LngLat>)           // the last easeTo target

  /** The component before its effects run: no map, no markers, no popup. */
  function Mount(store: Store): (v: MapView)
    ensures !v.mapCreated && v.markers == map[] && v.popup == Closed
    ensures v.activePopupUserId == None && v.camera == None
  {
    MapView(store, false, map[], Closed, None, None)
  }

  /** The ids present in a population. */
  function Ids(users: seq<User>): (ids: set<string>)
    ensures forall i :: 0 <= i < |users| ==> users[i].id in ids
    ensures forall k :: k in ids ==> exists i :: 0 <= i < |users| && users[i].id == k
  {
    if |users| == 0 then {} else Ids(users[..|users| - 1]) + {users[|users| - 1].id}
  }

  /** The last user in the population carrying `id`, if any. */
  function LastById(users: seq<User>, id: string): (r: Option<User>)
    ensures r.Some? <==> id in Ids(users)
    ensures r.Some? ==> r.value.id == id && r.value in users
  {
    if |users| == 0 then None
    else if users[|users| - 1].id == id then Some(users[|users| - 1])
    else
      var init := users[..|users| - 1];
      assert users == init + [users[|users| - 1]];
      LastById(init, id)
  }

  // ---------------------------------------------------------------------------------------
  // Map initialisation

  /** The map-creation effect, guarded by the existing instance: creates the map and a closed popup once. */
  function Init(v: MapView): (r: MapView)
    ensures r.mapCreated
    ensures v.mapCreated ==> r == v
    ensures !v.mapCreated ==> r == v.(mapCreated := true, popup := Closed)
  {
    if v.mapCreated then v else v.(mapCreated := true, popup := Closed)
  }

  /** A second initialisation does nothing. */
  lemma InitIdempotent(v: MapView)
    ensures Init(Init(v)) == Init(v)
  {
  }

  // ---------------------------------------------------------------------------------------
  // Simulation data

  /** The registry half of the `forEach` body: move an existing marker, or create one capturing the user. */
  function PlaceMarker(markers: map<string, Marker>, u: User): (r: map<string, Marker>)
    ensures r.Keys == markers.Keys + {u.id}
    ensures r[u.id].pos == PositionOf(u)
    ensures u.id in markers ==> r[u.id].captured == markers[u.id].captured && r[u.id].capturedPos == markers[u.id].capturedPos
    ensures u.id !in markers ==> r[u.id].captured == u && r[u.id].capturedPos == PositionOf(u)
    ensures forall k :: k in markers && k != u.id ==> r[k] == markers[k]
  {
    var p := PositionOf(u);
    if u.id in markers then markers[u.id := markers[u.id].(pos := p)] else markers[u.id := Marker(p, u, p)]
  }

  /** The camera and popup half of the `forEach` body, run after the user's marker is placed. */
  function ReactToUser(v: MapView, u: User): (r: MapView)
    ensures r.store == v.store && r.mapCreated == v.mapCreated && r.markers == v.markers
    // The followed user pulls the camera and ends with the popup open on it, offering Unfollow.
    ensures v.store.followId == Some(u.id) ==>
      && r.camera == Some(PositionOf(u))
      && r.popup == Open(PositionOf(u), BuildPopup(u, true))
      && r.activePopupUserId == Some(u.id)
    // Anyone else leaves the camera alone and only refreshes a popup already open for it.
    ensures v.store.followId != Some(u.id) ==> r.camera == v.camera && r.activePopupUserId == v.activePopupUserId
    ensures v.store.followId != Some(u.id) && v.popup.Open? && v.activePopupUserId == Some(u.id) ==>
      r.popup == Open(PositionOf(u), BuildPopup(u, false))
    ensures v.store.followId != Some(u.id) && !(v.popup.Open? && v.activePopupUserId == Some(u.id)) ==>
      r.popup == v.popup
  {
    var p := PositionOf(u);
    var isBeingFollowed := v.store.followId == Some(u.id);
    var v2 :=
      if isBeingFollowed then
        var withCamera := v.(camera := Some(p));
        if withCamera.popup.Open? && withCamera.activePopupUserId == Some(u.id) then withCamera
        else withCamera.(popup := Open(p, BuildPopup(u, true)), activePopupUserId := Some(u.id))
      else v;
    if v2.popup.Open? && v2.activePopupUserId == Some(u.id) then v2.(popup := Open(p, BuildPopup(u, isBeingFollowed)))
    else v2
  }

  /** The body of the `forEach` for one user: place its marker, then move the camera and refresh the popup. */
  function ProcessUser(v: MapView, u: User): (r: MapView)
    ensures r.markers == PlaceMarker(v.markers, u) && r.store == v.store && r.mapCreated == v.mapCreated
    ensures v.store.followId == Some(u.id) ==>
      r.camera == Some(PositionOf(u)) && r.popup == Open(PositionOf(u), BuildPopup(u, true))
    ensures v.store.followId != Some(u.id) ==> r.camera == v.camera
  {
    ReactToUser(v.(markers := PlaceMarker(v.markers, u)), u)
  }

  /** The whole `forEach`, users taken left to right. */
  function ProcessAll(v: MapView, users: seq<User>): (r: MapView)
    ensures r.store == v.store && r.mapCreated == v.mapCreated
    ensures r.markers.Keys == v.markers.Keys + Ids(users)
  {
    if |users| == 0 then v
    else ProcessUser(ProcessAll(v, users[..|users| - 1]), users[|users| - 1])
  }

  /** Unfolds `ProcessAll` at its last user. */
  lemma ProcessAllLast(v: MapView, users: seq<User>)
    requires |users| > 0
    ensures ProcessAll(v, users) == ProcessUser(ProcessAll(v, users[..|users| - 1]), users[|users| - 1])
    ensures Ids(users) == Ids(users[..|users| - 1]) + {users[|users| - 1].id}
  {
  }

  /** Every emitted id ends up anchored where its last occurrence in the emission puts it. */
  lemma {:induction false} MarkersAtEmittedPositions(v: MapView, users: seq<User>)
    ensures var r := ProcessAll(v, users);
      forall k :: k in Ids(users) ==> r.markers[k].pos == PositionOf(LastById(users, k).value)
    decreases |users|
  {
    if |users| > 0 {
      var init := users[..|users| - 1];
      var last := users[|users| - 1];
      ProcessAllLast(v, users);
      MarkersAtEmittedPositions(v, init);
      var r := ProcessAll(v, users);
      forall k | k in Ids(users)
        ensures r.markers[k].pos == PositionOf(LastById(users, k).value)
      {
        if k != last.id {
          assert LastById(users, k) == LastById(init, k);
        }
      }
    }
  }

  /**
   Existing markers are never re-created: what their click handlers captured stays, and a
   marker whose id is not in the emission is untouched.
   */
  lemma {:induction false} MarkersKeepCaptures(v: MapView, users: seq<User>)
    ensures var r := ProcessAll(v, users);
      forall k :: k in v.markers ==>
        && r.markers[k].captured == v.markers[k].captured
        && r.markers[k].capturedPos == v.markers[k].capturedPos
        && (k !in Ids(users) ==> r.markers[k] == v.markers[k])
    decreases |users|
  {
    if |users| > 0 {
      ProcessAllLast(v, users);
      MarkersKeepCaptures(v, users[..|users| - 1]);
    }
  }

  /** A marker created by an emission captures the first user carrying its id, at that user's position. */
  lemma {:induction false} NewMarkersCaptureFirst(v: MapView, users: seq<User>)
    ensures CapturesFirst(v.markers, ProcessAll(v, users).markers, users)
    decreases |users|
  {
    if |users| > 0 {
      var init := users[..|users| - 1];
      var last := users[|users| - 1];
      ProcessAllLast(v, users);
      NewMarkersCaptureFirst(v, init);
      var mid := ProcessAll(v, init);
      CapturesFirstStep(v.markers, mid.markers, users);
    }
  }

  /** Every id of `users` missing from `before` is in `after`, holding the first such user and its position. */
  predicate CapturesFirst(before: map<string, Marker>, after: map<string, Marker>, users: seq<User>) {
    forall k :: k in Ids(users) && k !in before ==> CapturedFirst(after, users, k)
  }

  predicate CapturedFirst(after: map<string, Marker>, users: seq<User>, k: string) {
    && k in after
    && FindById(users, k).Some?
    && after[k].captured == FindById(users, k).value
    && after[k].capturedPos == PositionOf(FindById(users, k).value)
  }

  /** Placing the last user's marker extends the capture property from the prefix to the whole emission. */
  lemma {:induction false} CapturesFirstStep(before: map<string, Marker>, mid: map<string, Marker>, users: seq<User>)
    requires |users| > 0
    requires mid.Keys == before.Keys + Ids(users[..|users| - 1])
    requires CapturesFirst(before, mid, users[..|users| - 1])
    ensures CapturesFirst(before, PlaceMarker(mid, users[|users| - 1]), users)
  {
    var init := users[..|users| - 1];
    var last := users[|users| - 1];
    forall k | k in Ids(users) && k !in before
      ensures CapturedFirst(PlaceMarker(mid, last), users, k)
    {
      if k in Ids(init) {
        CaptureKept(mid, users, k);
      } else {
        CaptureCreated(mid, users);
      }
    }
  }

  /** An id already seen earlier in the emission keeps the capture it got then. */
  lemma CaptureKept(mid: map<string, Marker>, users: seq<User>, k: string)
    requires |users| > 0 && k in Ids(users[..|users| - 1])
    requires CapturedFirst(mid, users[..|users| - 1], k)
    ensures CapturedFirst(PlaceMarker(mid, users[|users| - 1]), users, k)
  {
    FindByIdDropLast(users, k);
  }

  /** An id first seen at the end of the emission, with no marker yet, captures that last user. */
  lemma CaptureCreated(mid: map<string, Marker>, users: seq<User>)
    requires |users| > 0
    requires users[|users| - 1].id !in Ids(users[..|users| - 1])
    requires users[|users| - 1].id !in mid
    ensures CapturedFirst(PlaceMarker(mid, users[|users| - 1]), users, users[|users| - 1].id)
  {
    FindByIdDropLast(users, users[|users| - 1].id);
  }

  /** `FindByIdAppend` read from the end of a non-empty population. */
  lemma {:induction false} FindByIdDropLast(users: seq<User>, k: string)
    requires |users| > 0
    ensures k in Ids(users[..|users| - 1]) ==> FindById(users, k) == FindById(users[..|users| - 1], k)
    ensures k == users[|users| - 1].id && k !in Ids(users[..|users| - 1]) ==> FindById(users, k) == Some(users[|users| - 1])
  {
    var init := users[..|users| - 1];
    var last := users[|users| - 1];
    assert init + [last] == users;
    FindByIdAppend(init, last, k);
  }

  /** Appending a user does not change who is found first for an id already present. */
  lemma {:induction false} FindByIdAppend(users: seq<User>, x: User, k: string)
    ensures k in Ids(users) ==> FindById(users + [x], k) == FindById(users, k)
    ensures k == x.id && k !in Ids(users) ==> FindById(users + [x], k) == Some(x)
    decreases |users|
  {
    var ext := users + [x];
    if |users| == 0 {
      assert ext == [x];
    } else {
      var tail := users[1..];
      assert ext[0] == users[0];
      assert ext[1..] == tail + [x];
      FindByIdAppend(tail, x, k);
      if k != users[0].id {
        if k in Ids(users) {
          var i :| 0 <= i < |users| && users[i].id == k;
          assert tail[i - 1].id == k;
        }
      }
    }
  }

  /** `onSimulationData`: only snapshot and update messages count; they are published, then applied to the map if it exists. */
  function OnSimulationData(v: MapView, kind: string, users: seq<User>): (r: MapView)
    ensures kind != "snapshot" && kind != "update" ==> r == v
    ensures kind == "snapshot" || kind == "update" ==> r.store == v.store.(users := users)
    ensures !v.mapCreated ==>
      r.markers == v.markers && r.popup == v.popup && r.activePopupUserId == v.activePopupUserId && r.camera == v.camera
    ensures r.mapCreated == v.mapCreated
  {
    if kind != "snapshot" && kind != "update" then v
    else
      var published := v.(store := v.store.(users := users));
      if !published.mapCreated then published else ProcessAll(published, users)
  }

  /**
   When the followed id appears in an emission, the camera goes to that user, and at the end
   the popup is open on that user with the Unfollow action. When it does not appear, the
   camera stays where it was.
   */
  lemma {:induction false} FollowedUserTracked(v: MapView, users: seq<User>)
    requires v.store.followId.Some?
    ensures var f := v.store.followId.value;
      var r := ProcessAll(v, users);
      if f in Ids(users) then
        var u := LastById(users, f).value;
        && r.camera == Some(PositionOf(u))
        && r.popup == Open(PositionOf(u), BuildPopup(u, true))
        && r.activePopupUserId == Some(f)
      else
        r.camera == v.camera
    decreases |users|
  {
    if |users| > 0 {
      var f := v.store.followId.value;
      var init := users[..|users| - 1];
      var last := users[|users| - 1];
      ProcessAllLast(v, users);
      FollowedUserTracked(v, init);
      var mid := ProcessAll(v, init);
      var placed := mid.(markers := PlaceMarker(mid.markers, last));
      assert ProcessAll(v, users) == ReactToUser(placed, last);
      assert placed.store == v.store;
      if last.id == f {
        assert LastById(users, f) == Some(last);
      } else {
        assert LastById(users, f) == LastById(init, f);
      }
    }
  }

  /**
   While nobody in an emission is followed, a popup open for X stays open for X, moves to
   X's new position with the Follow action if X is in the emission, and is untouched otherwise.
   */
  lemma {:induction false} OpenPopupRefreshed(v: MapView, users: seq<User>, x: string)
    requires v.popup.Open? && v.activePopupUserId == Some(x)
    requires forall u :: u in users ==> v.store.followId != Some(u.id)
    ensures var r := ProcessAll(v, users);
      && r.activePopupUserId == Some(x) && r.camera == v.camera && r.popup.Open?
      && (x in Ids(users) ==>
            var u := LastById(users, x).value;
            r.popup == Open(PositionOf(u), BuildPopup(u, false)))
      && (x !in Ids(users) ==> r.popup == v.popup)
    decreases |users|
  {
    if |users| > 0 {
      var init := users[..|users| - 1];
      var last := users[|users| - 1];
      ProcessAllLast(v, users);
      assert forall u :: u in init ==> u in users;
      OpenPopupRefreshed(v, init, x);
      var mid := ProcessAll(v, init);
      var placed := mid.(markers := PlaceMarker(mid.markers, last));
      assert ProcessAll(v, users) == ReactToUser(placed, last);
      assert placed.store == v.store;
      assert v.store.followId != Some(last.id);
      if last.id == x {
        assert LastById(users, x) == Some(last);
      } else {
        assert LastById(users, x) == LastById(init, x);
      }
    }
  }

  /**
   A popup open for X follows X through an emission containing X, provided the emission
   carries no other followed user: it moves to X's new position, keeps X as its user, and
   offers Unfollow exactly when X is followed and Follow(X) otherwise.
   */
  lemma OpenPopupTracksUser(v: MapView, users: seq<User>, x: string)
    requires v.popup.Open? && v.activePopupUserId == Some(x) && x in Ids(users)
    requires v.store.followId == Some(x) || forall u :: u in users ==> v.store.followId != Some(u.id)
    ensures var r := ProcessAll(v, users);
      var u := LastById(users, x).value;
      && r.activePopupUserId == Some(x)
      && r.popup.Open? && r.popup.pos == PositionOf(u) && r.popup.content.user == u
      && r.popup.content.action == (if v.store.followId == Some(x) then Unfollow else Follow(x))
  {
    if v.store.followId == Some(x) {
      FollowedUserTracked(v, users);
    } else {
      OpenPopupRefreshed(v, users, x);
    }
  }

  // ---------------------------------------------------------------------------------------
  // User interaction

  /**
   A click on marker `id`: the handler opens the popup with the user and position it captured
   when the marker was created, and records that user's id as the popup's user.
   */
  function MarkerClick(v: MapView, id: string): (r: MapView)
    ensures id in v.markers && v.mapCreated ==>
      var m := v.markers[id];
      && r.popup.Open?
      && r.popup.pos == m.capturedPos
      && r.popup.content == BuildPopup(m.captured, v.store.followId == Some(m.captured.id))
      && r.activePopupUserId == Some(m.captured.id)
    ensures r.store == v.store && r.markers == v.markers && r.camera == v.camera
    ensures !(id in v.markers && v.mapCreated) ==> r == v
  {
    if id in v.markers && v.mapCreated then
      var m := v.markers[id];
      v.(popup := Open(m.capturedPos, BuildPopup(m.captured, v.store.followId == Some(m.captured.id))),
         activePopupUserId := Some(m.captured.id))
    else v
  }

  /** The popup's close event: clears a truthy followed id and the popup's user. */
  function PopupClose(v: MapView): (r: MapView)
    ensures v.popup.Open? ==> r.popup == Closed && r.activePopupUserId == None
    ensures v.popup.Open? && Truthy(v.store.followId) ==> r.store.followId == None
    ensures !Truthy(v.store.followId) ==> r.store == v.store
    ensures r.store.users == v.store.users && r.markers == v.markers && r.camera == v.camera
    ensures v.popup == Closed ==> r == v
  {
    if v.popup.Closed? then v
    else
      var store := if Truthy(v.store.followId) then v.store.(followId := None) else v.store;
      v.(popup := Closed, activePopupUserId := None, store := store)
  }

  /** A click on the map: ignored while following; off a marker it closes the popup. */
  function MapClick(v: MapView, isMarkerTarget: bool): (r: MapView)
    ensures Truthy(v.store.followId) || isMarkerTarget || !v.mapCreated ==> r == v
    ensures !Truthy(v.store.followId) && !isMarkerTarget && v.mapCreated ==>
      r == v.(popup := Closed, activePopupUserId := None)
  {
    if !v.mapCreated || Truthy(v.store.followId) || isMarkerTarget then v
    else v.(popup := Closed, activePopupUserId := None)
  }

  /** `window.followUser(id)`: follow `id`; the map reacts at the next emission. */
  function FollowUser(v: MapView, id: string): (r: MapView)
    ensures r.store.followId == Some(id) && IsFollowing(r.store)
    ensures r == v.(store := r.store) && r.store.users == v.store.users
  {
    v.(store := v.store.(followId := Some(id)))
  }

  /** `window.unfollowUser()`: nobody followed, popup closed, no popup user. */
  function UnfollowUser(v: MapView): (r: MapView)
    ensures r.store.followId == None && !IsFollowing(r.store)
    ensures r.popup == Closed && r.activePopupUserId == None
    ensures r.store.users == v.store.users && r.markers == v.markers && r.camera == v.camera
  {
    v.(store := v.store.(followId := None), popup := Closed, activePopupUserId := None)
  }

  // ---------------------------------------------------------------------------------------
  // Runs of events

  datatype Event =
    | MapInit
    | SimulationData(kind: string, users: seq<User>)
    | MarkerClicked(id: string)
    | PopupClosed
    | MapClicked(isMarkerTarget: bool)
    | FollowCalled(id: string)
    | UnfollowCalled
    | SelectionWritten(followId: Option<string>)   // the search panel writing the followed id

  function Step(v: MapView, e: Event): (r: MapView)
    // No event removes a marker or destroys the map; only initialisation creates it.
    ensures v.markers.Keys <= r.markers.Keys
    ensures r.mapCreated == (v.mapCreated || e.MapInit?)
    // The search panel writing the selection changes the followed id and nothing else.
    ensures e.SelectionWritten? ==>
      && r.store.followId == e.followId && r.store.users == v.store.users
      && r.markers == v.markers && r.popup == v.popup
      && r.activePopupUserId == v.activePopupUserId && r.camera == v.camera
  {
    match e
    case MapInit => Init(v)
    case SimulationData(kind, users) => OnSimulationData(v, kind, users)
    case MarkerClicked(id) => MarkerClick(v, id)
    case PopupClosed => PopupClose(v)
    case MapClicked(onMarker) => MapClick(v, onMarker)
    case FollowCalled(id) => FollowUser(v, id)
    case UnfollowCalled => UnfollowUser(v)
    case SelectionWritten(followId) => v.(store := v.store.(followId := followId))
  }

  function Run(v: MapView, evs: seq<Event>): MapView
    decreases |evs|
  {
    if |evs| == 0 then v else Run(Step(v, evs[0]), evs[1..])
  }

  /**
   What holds at every point of a run: the popup is open exactly when it has a user, it shows
   that user and offers Unfollow or Follow for that same user; every marker's handler captured
   the user whose id keys it, at that user's position; nothing is drawn before the map exists.
   */
  predicate Inv(v: MapView) {
    && (v.popup.Open? <==> v.activePopupUserId.Some?)
    && (v.popup.Open? ==> v.mapCreated && v.popup.content.user.id == v.activePopupUserId.value)
    && (v.popup.Open? ==>
          v.popup.content.action == Unfollow || v.popup.content.action == Follow(v.popup.content.user.id))
    && (forall k :: k in v.markers ==>
          v.markers[k].captured.id == k && v.markers[k].capturedPos == PositionOf(v.markers[k].captured))
    && (v.markers != map[] ==> v.mapCreated)
    && (v.camera.Some? ==> v.mapCreated)
  }

  lemma MountInv(store: Store)
    ensures Inv(Mount(store))
  {
  }

  lemma ProcessUserInv(v: MapView, u: User)
    requires Inv(v) && v.mapCreated
    ensures Inv(ProcessUser(v, u))
  {
    var placed := v.(markers := PlaceMarker(v.markers, u));
    assert Inv(placed);
  }

  lemma {:induction false} ProcessAllInv(v: MapView, users: seq<User>)
    requires Inv(v) && v.mapCreated
    ensures Inv(ProcessAll(v, users))
    decreases |users|
  {
    if |users| > 0 {
      ProcessAllLast(v, users);
      ProcessAllInv(v, users[..|users| - 1]);
      ProcessUserInv(ProcessAll(v, users[..|users| - 1]), users[|users| - 1]);
    }
  }

  lemma StepInv(v: MapView, e: Event)
    requires Inv(v)
    ensures Inv(Step(v, e))
  {
    match e
    case SimulationData(kind, users) =>
      if (kind == "snapshot" || kind == "update") && v.mapCreated {
        ProcessAllInv(v.(store := v.store.(users := users)), users);
      }
    case _ =>
  }

  lemma {:induction false} RunInv(v: MapView, evs: seq<Event>)
    requires Inv(v)
    ensures Inv(Run(v, evs))
    decreases |evs|
  {
    if |evs| > 0 {
      StepInv(v, evs[0]);
      RunInv(Step(v, evs[0]), evs[1..]);
    }
  }

  /** Every marker of `a` is still in `b`, with the same captured user and position. */
  predicate CapturesKept(a: MapView, b: MapView) {
    forall k :: k in a.markers ==>
      k in b.markers && b.markers[k].captured == a.markers[k].captured && b.markers[k].capturedPos == a.markers[k].capturedPos
  }

  lemma StepKeepsCaptures(v: MapView, e: Event)
    ensures CapturesKept(v, Step(v, e))
  {
    match e
    case SimulationData(kind, users) =>
      if (kind == "snapshot" || kind == "update") && v.mapCreated {
        MarkersKeepCaptures(v.(store := v.store.(users := users)), users);
      }
    case _ =>
  }

  /**
   Markers are created at most once per id over any run: no marker disappears, and no
   marker's captured user or position is ever replaced.
   */
  lemma {:induction false} RunKeepsCaptures(v: MapView, evs: seq<Event>)
    ensures CapturesKept(v, Run(v, evs))
    decreases |evs|
  {
    if |evs| > 0 {
      StepKeepsCaptures(v, evs[0]);
      RunKeepsCaptures(Step(v, evs[0]), evs[1..]);
    }
  }

  /** In any reachable view a marker click opens the popup for that marker's own id. */
  lemma MarkerClickOpensForMarker(v: MapView, id: string)
    requires Inv(v) && id in v.markers
    ensures var r := MarkerClick(v, id);
      && r.activePopupUserId == Some(id)
      && r.popup == Open(v.markers[id].capturedPos,
                         BuildPopup(v.markers[id].captured, v.store.followId == Some(id)))
      && Inv(r)
  {
    StepInv(v, MarkerClicked(id));
  }

  /**
   The click handler's capture is stale: after a user has moved, clicking its marker opens the
   popup where the user was when its marker was created, not where the marker now is.
   */
  lemma StaleClickPosition(v: MapView, first: User, moved: User)
    requires Inv(v) && v.mapCreated && first.id !in v.markers
    requires moved.id == first.id && PositionOf(moved) != PositionOf(first)
    ensures var v1 := OnSimulationData(v, "snapshot", [first]);
      var v2 := OnSimulationData(v1, "update", [moved]);
      var r := MarkerClick(v2, first.id);
      && v2.markers[first.id].pos == PositionOf(moved)
      && r.popup.Open? && r.popup.pos == PositionOf(first) && r.popup.content.user == first
  {
    var p1 := v.(store := v.store.(users := [first]));
    var v1 := ProcessAll(p1, [first]);
    assert OnSimulationData(v, "snapshot", [first]) == v1;
    NewMarkersCaptureFirst(p1, [first]);
    assert first.id in Ids([first]);
    assert CapturedFirst(v1.markers, [first], first.id);
    assert FindById([first], first.id) == Some(first);
    var p2 := v1.(store := v1.store.(users := [moved]));
    var v2 := ProcessAll(p2, [moved]);
    assert OnSimulationData(v1, "update", [moved]) == v2;
    MarkersKeepCaptures(p2, [moved]);
    MarkersAtEmittedPositions(p2, [moved]);
    assert first.id in Ids([moved]);
    assert LastById([moved], first.id) == Some(moved);
    assert v2.markers[first.id].captured == first && v2.markers[first.id].capturedPos == PositionOf(first);
  }

  /**
   Following X makes the next emission containing X open the popup on X with Unfollow and
   move the camera to X; unfollowing closes it and clears the selection; following X again
   reopens it at the following emission.
   */
  lemma FollowUnfollowRoundTrip(v: MapView, users: seq<User>, later: seq<User>, x: string)
    requires v.mapCreated && x in Ids(users) && x in Ids(later)
    ensures var v1 := OnSimulationData(FollowUser(v, x), "update", users);
      var v2 := UnfollowUser(v1);
      var v3 := OnSimulationData(FollowUser(v2, x), "update", later);
      && v1.store.followId == Some(x)
      && v1.popup.Open? && v1.activePopupUserId == Some(x) && v1.popup.content.action == Unfollow
      && v1.camera == Some(PositionOf(LastById(users, x).value))
      && v2.store.followId == None && v2.popup == Closed && v2.activePopupUserId == None
      && v3.popup.Open? && v3.activePopupUserId == Some(x) && v3.popup.content.action == Unfollow
      && v3.camera == Some(PositionOf(LastById(later, x).value))
  {
    var f1 := FollowUser(v, x);
    FollowedUserTracked(f1.(store := f1.store.(users := users)), users);
    var v2 := UnfollowUser(OnSimulationData(f1, "update", users));
    var f3 := FollowUser(v2, x);
    FollowedUserTracked(f3.(store := f3.store.(users := later)), later);
  }
}

=== FILE: wrappers.dfy ===
/** The optional value used wherever the source has `T | null` or `T | undefined`. */
module Wrappers {

  datatype Option<+T> = None | Some(value: T)
}
